=== FILE: README.md ===
# wakeup alarm core, modelled in Dafny

`wakeup` is a one-window alarm clock. The user types a time of day and a shell
command. Start arms a timer for the next occurrence of that time. When the
timer fires, the command runs under `/bin/sh -c`. Stop retires the alarm:
it kills and releases a running command, or stops a pending timer.

This project models the two parts of main.go that carry logic:

- `bestTime` (module `Resolve`). It places the target clock on today's or
  tomorrow's date. The supporting modules are `Civil` (Gregorian dates;
  `NextDay` is `AddDate(0, 0, 1)`), `TimeOfDay` (clock triples) and
  `Instant` (a `time.Time` in a fixed-offset local zone, with a saturating
  `Sub`).
- The `select` loop of `myMain` and its `stop` closure (module `Alarm`).
  The state is the loop's variables `cmd`, `timer` and `timerChan`. Each
  `select` case is a pure transition. The library outcomes are inputs carried
  by the event: what `time.Parse` returned, `time.Now()`, whether
  `cmd.Start()` succeeded, and what `Kill`/`Release` returned. Message boxes,
  process starts and timer operations come back as a list of effects.

`Scenarios` holds the worked examples: concrete resolutions, calendar edges,
and short event traces.

Facts about main.go that the model keeps:

- The command runs as `/bin/sh -c <text>` (main.go:113).
- stdin, stdout and stderr inherit the parent's streams (main.go:115-117).
- The command text is read when the timer fires (main.go:113).
- The loop sets no status text; it only shows message boxes.
- Stop always shows the "abort" box (main.go:127), so Stop on an idle loop
  has exactly that one effect.

## Model

| member | source | states |
|---|---|---|
| Civil.NextDay | main.go:32-33 | The day after a valid date is a valid date whose day number is exactly one more. It stays in the same year unless the date is December 31st, in which case it is January 1st of the next year. |
| Civil.NextPrevRoundTrip | main.go:32-33 | Advancing one day can be undone: `PrevDay` is its exact inverse in both orders, so no two dates share a next day. |
| Civil.DayNumberInjective | main.go:35-37 | Distinct valid dates lie on distinct days, so the resolved date is determined by its day offset from now. |
| Resolve.AddsDayIffNotEarlier | main.go:23-31 | The three-branch hour/minute/second test adds a day exactly when now's clock is not strictly earlier than the target's, counted in seconds since midnight. |
| Resolve.BestTime | main.go:19-38 | The result has the target's hour, minute and second, zero nanoseconds and now's zone. It falls on now's date when the target clock is strictly later than now's, and on the next calendar date otherwise. |
| Resolve.BestTimeWithinOneDay | main.go:18-37 | The resolved instant is strictly after now and at most 24 hours after it, including when now and the target share the same second. |
| Resolve.NextOccurrence | main.go:18-38 | Among instants with the target clock, zero nanoseconds and now's zone, the result of `bestTime` is exactly the one that lies in (now, now + 24h]. It is the next occurrence of the target time. |
| Resolve.BestTimeStable | main.go:19-38 | Resolving the result again from the same now returns the same instant. |
| Instant.Sub | main.go:110 | The timer's duration is the exact nanosecond difference when it fits in 64 bits, and otherwise saturates to the largest or smallest 64-bit duration on the matching side. It is positive exactly when the first instant is later. |
| Alarm.InvAtMostOneAlarm | main.go:41-43 | Under the loop invariant, at most one of a pending timer and a running command exists. |
| Alarm.Stop | main.go:45-62 | `stop` always leaves no command and no timer, and fully idle when the invariant held. It has no effect at all on an idle state. With a command, it tries Kill and then always tries Release. It reports each failure separately. It stops exactly the timer that was pending. Its only effects are kill, release and timer-stop attempts and their errors; every kill and release touches the loop's own command, and there are exactly as many effects as one kill, one release, the failures that occurred and one timer stop account for. |
| Alarm.StartAlarm | main.go:99-111 | Start first runs exactly `stop`'s effects: it kills the old command, always tries to release it, reports each failure, and stops the old timer. Nothing else comes before the final effect. A parse failure leaves no timer and reports the text, `time.Parse`'s error and the layout "3:04 PM". Success arms exactly one timer with no command. That timer fires at `bestTime` of the parsed time, and its duration is exactly `later.Sub(now)`, which lies in (0, 24h]. |
| Alarm.Fire | main.go:112-124 | The timer case is inert when there is no channel. Otherwise it clears the timer and channel, so the timer cannot fire twice. It starts `/bin/sh -c <text>` once, with the text read now. Its only other possible effect is that command's start error. It keeps the process only when the start succeeded. It reports the start error exactly when the start failed. |
| Alarm.FireDropsNoProcess | main.go:112-113 | Whenever the timer can fire, `cmd` is nil, so overwriting it with the new command loses no process. |
| Alarm.StepKeepsInv | main.go:94-128 | Every case of the loop keeps the invariant: a timer exists exactly when its channel does, and a timer and a command are never both present. |
| Alarm.PhaseOf | main.go:41-43 | A state that keeps the invariant is in exactly one phase: idle when all three variables are nil, armed when a timer is present, firing when a command is present; an armed phase carries that timer and a firing phase that process. |
| Alarm.StateOf | main.go:41-43 | Every phase corresponds to a state that keeps the invariant. |
| Alarm.PhaseRoundTrip | main.go:41-43 | States that keep the invariant correspond one-to-one with phases. |
| Alarm.StepRefinesPhaseStep | main.go:94-128 | Each loop case moves the phase as the idle/armed/firing machine prescribes. Start leads to armed, or to idle on a parse error. The timer leads from armed to firing, or to idle on a start error. Stop and Closing lead to idle. |
| Alarm.Run | main.go:94-132 | Over any sequence of events, the loop keeps the invariant. It exits exactly when a Closing event arrives, and the final `stop` leaves it idle. |
| Scenarios.TargetAlreadyPassed | main.go:24-37 | At 2014-03-04 10:31 a 10:30 target resolves to 2014-03-05 10:30:00. |
| Scenarios.TargetStillAhead | main.go:24-37 | At 2014-03-04 09:00 a 10:30 target resolves to 2014-03-04 10:30:00. |
| Scenarios.ExactSecondIsTomorrow | main.go:28-33 | When now is exactly the target second, the result is the next day, exactly 24 hours later. |
| Scenarios.CalendarEdges | main.go:32-33 | The day advance crosses a month end, a year end and February in leap years (2016, 2000), in a common year (2015) and in a century year (2100). |
| Scenarios.StopWhenIdle | main.go:125-127 | Stop on an idle loop changes nothing and only shows the "abort" box. |
| Scenarios.StartThenStopFirstTwo | main.go:99-111 | Start followed by Stop leaves the loop idle, and neither step starts a process. |
| Scenarios.StopThenLateFire | main.go:112 | After Stop, a later timer event changes nothing. The loop stays idle and only Stop's effects remain. |
| Scenarios.StartThenStop | main.go:99-127 | Start followed by Stop before the timer fires means a late delivery is never handled. No process is started and the loop ends idle. |
| Scenarios.SpawnFailureReturnsToIdle | main.go:112-124 | When the command cannot be started, the loop returns to idle and reports the start error. |
| Scenarios.StartTwice | main.go:99-111 | A second Start stops the first timer and arms its own, so exactly one alarm remains. |
| Scenarios.MalformedTime | main.go:100-106 | An unparseable time such as "25:99 XM" leaves the loop idle with no timer. It reports the text, the parser's error and the expected layout "3:04 PM". |

## Left out

- Window, layout, buttons, text boxes and message boxes (main.go:64-92, 135-140). Message boxes appear only as effects.
- `time.Parse` with the layout "3:04 PM". Its result is an input to the Start event: either a valid time or an error message, which the parse-error box shows.
- `os/exec` and `os.Process`. Starting, killing and releasing are reduced to their success or failure, which arrive as inputs.
- Real waiting, `time.NewTimer`, channels and the concurrency of `select`. The loop is a sequence of serialized events. A nil `timerChan` is never ready, so a timer event on a state without a channel does nothing.
- Time zones, DST and `Time.Local()`. Every instant is already in one local zone with a fixed UTC offset, so `Local()` is the identity. `time.Date` then reproduces the given clock exactly.
- The bounded range of Go's internal time representation. Years are unbounded integers on the proleptic Gregorian calendar.
- `Timer.Stop`'s boolean result, which main.go ignores.

=== FILE: alarm.dfy ===
/**
  The alarm loop of `myMain` in main.go as a state machine.

  The state is the loop's three variables `cmd`, `timer` and `timerChan`.
  Each case of the `select` becomes one event; the outcomes of the library
  calls the case makes (`time.Parse`, `time.Now`, `cmd.Start`,
  `Process.Kill`, `Process.Release`) travel inside the event, so every
  transition is a pure function. What the loop shows or does to the outside
  world is returned as a list of effects.
 */
module Alarm {
  import opened Civil
  import opened TimeOfDay
  import opened Instant
  import opened Resolve

  datatype Option<+T> = None | Some(value: T)

  /** The result of a call that returns only an error: `Kill`, `Release`. */
  datatype Outcome = Ok | Err(msg: string)

  /** The result of `cmd.Start()`: the child's process id, or the error. */
  datatype SpawnResult = Spawned(pid: nat) | SpawnFailed(msg: string)

  /** Where a child's standard stream is connected. */
  datatype Stream = ParentStdin | ParentStdout | ParentStderr

  /** An `exec.Cmd` as configured before `Start`. */
  datatype Command = Command(path: string, args: seq<string>, stdin: Stream, stdout: Stream, stderr: Stream)

  /** A started command and its process. */
  datatype Process = Process(pid: nat, command: Command)

  /** A `time.Timer` set to fire at `fireAt`, created with duration `delay` (nanoseconds). */
  datatype Timer = Timer(fireAt: Time, delay: int)

  /**
    The timer's channel `timer.C`. Go sends on it the time at which the timer
    expired; the model records the timer's `fireAt` only to tie the channel
    to its timer.
   */
  datatype Chan = Chan(timerFireAt: Time)

  datatype State = State(cmd: Option<Process>, timer: Option<Timer>, timerChan: Option<Chan>)

  /** The loop's variables before the first event: all nil. */
  const Initial: State := State(None, None, None)

  /** The layout `time.Parse` is given for the time box. */
  const TimeFormat: string := "3:04 PM"

  /** What `time.Parse(TimeFormat, text)` returned: the parsed time, or the error. */
  datatype ParseResult = ParsedOk(time: Time) | ParseFailed(msg: string)

  /** What `Process.Kill` and `Process.Release` will return, if `stop` calls them. */
  datatype Cleanup = Cleanup(kill: Outcome, release: Outcome)

  datatype Event =
    /** Start clicked: `stop`'s outcomes, the time box text, what `time.Parse` made of it, and `time.Now()`. */
    | StartClicked(retire: Cleanup, timeText: string, parsed: ParseResult, now: Time)
    /** The timer's channel delivered: the command box text at that moment, and what `cmd.Start()` returned. */
    | TimerFired(cmdText: string, spawn: SpawnResult)
    /** Stop clicked. */
    | StopClicked(retire: Cleanup)
    /** The window is closing: the loop ends and `stop` runs once more. */
    | Closing(retire: Cleanup)

  datatype Effect =
    | KillAttempt(p: Process)
    | KillError(p: Process, msg: string)
    | ReleaseAttempt(p: Process)
    | ReleaseError(p: Process, msg: string)
    | TimerStopped(t: Timer)
    | ParseError(text: string, msg: string, format: string)
    | TimerArmed(t: Timer)
    | ProcessStart(c: Command)
    | ProcessStartError(c: Command, msg: string)
    | AbortNotice

  datatype Transition = Transition(state: State, effects: seq<Effect>)

  /** The library hands out only valid times. */
  predicate WellFormed(e: Event) {
    e.StartClicked? ==> ValidTime(e.now) && (e.parsed.ParsedOk? ==> ValidTime(e.parsed.time))
  }

  /**
    The loop's invariant: a timer and its channel exist together (the channel
    is the timer's), and a timer and a running command never coexist.
   */
  predicate Inv(s: State) {
    && (s.timer.Some? <==> s.timerChan.Some?)
    && (s.timer.Some? ==> s.timerChan.value == Chan(s.timer.value.fireAt))
    && !(s.cmd.Some? && s.timer.Some?)
  }

  /** Pending timers plus running commands. */
  function Alarms(s: State): nat {
    (if s.cmd.Some? then 1 else 0) + (if s.timer.Some? then 1 else 0)
  }

  /** Only one alarm at a time: the invariant keeps at most one handle alive. */
  lemma InvAtMostOneAlarm(s: State)
    requires Inv(s)
    ensures Alarms(s) <= 1
  {
  }

  /** `cmd` after `exec.Command("/bin/sh", "-c", text)` and the three stream assignments. */
  function ShellCommand(text: string): Command {
    Command("/bin/sh", ["-c", text], ParentStdin, ParentStdout, ParentStderr)
  }

  /** Kill, then Release regardless of Kill's outcome, each failure reported on its own. */
  function RetireProcess(p: Process, c: Cleanup): seq<Effect> {
    [KillAttempt(p)]
    + (if c.kill.Err? then [KillError(p, c.kill.msg)] else [])
    + [ReleaseAttempt(p)]
    + (if c.release.Err? then [ReleaseError(p, c.release.msg)] else [])
  }

  /** Some effect of `fx` reports a Kill failure. */
  predicate ReportsKillError(fx: seq<Effect>) {
    exists i :: 0 <= i < |fx| && fx[i].KillError?
  }

  /** Some effect of `fx` reports a Release failure. */
  predicate ReportsReleaseError(fx: seq<Effect>) {
    exists i :: 0 <= i < |fx| && fx[i].ReleaseError?
  }

  /**
    The `stop` closure. It kills and releases the command if there is one,
    then stops the timer if there is one. Only the timer branch clears
    `timerChan`.
   */
  function Stop(s: State, c: Cleanup): (r: Transition)
    ensures r.state.cmd.None? && r.state.timer.None?
    ensures Inv(s) ==> r.state == Initial
    ensures r.effects == [] <==> s.cmd.None? && s.timer.None?
    ensures s.cmd.Some? ==> r.effects[0] == KillAttempt(s.cmd.value) && ReleaseAttempt(s.cmd.value) in r.effects
    ensures s.cmd.Some? && c.kill.Err? ==> KillError(s.cmd.value, c.kill.msg) in r.effects
    ensures s.cmd.Some? && c.release.Err? ==> ReleaseError(s.cmd.value, c.release.msg) in r.effects
    ensures ReportsKillError(r.effects) ==> s.cmd.Some? && c.kill.Err?
    ensures ReportsReleaseError(r.effects) ==> s.cmd.Some? && c.release.Err?
    ensures forall t :: TimerStopped(t) in r.effects <==> s.timer == Some(t)
    ensures forall e :: e in r.effects ==> e.KillAttempt? || e.KillError? || e.ReleaseAttempt? || e.ReleaseError? || e.TimerStopped?
    ensures forall e :: e in r.effects && (e.KillAttempt? || e.KillError? || e.ReleaseAttempt? || e.ReleaseError?) ==> s.cmd == Some(e.p)
    ensures |r.effects| == (if s.cmd.Some? then 2 + (if c.kill.Err? then 1 else 0) + (if c.release.Err? then 1 else 0) else 0)
                         + (if s.timer.Some? then 1 else 0)
  {
    var fx := match s.cmd
      case Some(p) => RetireProcess(p, c)
      case None => [];
    match s.timer
    case Some(t) => Transition(State(None, None, None), fx + [TimerStopped(t)])
    case None => Transition(State(None, None, s.timerChan), fx)
  }

  /** What `stop`'s effects guarantee about any list that extends them by one last effect. */
  lemma StopThen(s: State, c: Cleanup, last: Effect)
    ensures var fx := Stop(s, c).effects + [last];
      && fx[..|fx| - 1] == Stop(s, c).effects
      && (forall i :: 0 <= i < |fx| - 1 ==> !fx[i].TimerArmed? && !fx[i].ParseError?)
      && (s.timer.Some? ==> TimerStopped(s.timer.value) in fx[..|fx| - 1])
      && (s.cmd.Some? ==> ReleaseAttempt(s.cmd.value) in fx[..|fx| - 1])
      && (s.cmd.Some? ==> fx[0] == KillAttempt(s.cmd.value))
  {
    var stopped := Stop(s, c).effects;
    var fx := stopped + [last];
    assert fx[..|fx| - 1] == stopped;
    forall i | 0 <= i < |fx| - 1
      ensures !fx[i].TimerArmed? && !fx[i].ParseError?
    {
      assert fx[i] == stopped[i];
      assert stopped[i] in stopped;
    }
  }

  /**
    The Start case: retire the previous alarm, then either report the parse
    error or arm a timer for the `bestTime` of the parsed time.
   */
  function StartAlarm(s: State, retire: Cleanup, text: string, parsed: ParseResult, now: Time): (r: Transition)
    requires ValidTime(now) && (parsed.ParsedOk? ==> ValidTime(parsed.time))
    ensures |r.effects| >= 1
    ensures r.state.cmd.None?
    ensures parsed.ParseFailed? ==> r.state.timer.None? && r.effects[|r.effects| - 1] == ParseError(text, parsed.msg, TimeFormat)
    ensures parsed.ParseFailed? && Inv(s) ==> r.state == Initial
    ensures parsed.ParsedOk? ==> Inv(r.state) && r.state.timer.Some?
    ensures parsed.ParsedOk? ==> r.effects[|r.effects| - 1] == TimerArmed(r.state.timer.value)
    ensures parsed.ParsedOk? ==> r.state.timer.value.fireAt == BestTime(now, parsed.time)
    ensures parsed.ParsedOk? ==> r.state.timer.value.delay == Sub(r.state.timer.value.fireAt, now)
    ensures parsed.ParsedOk? ==> 0 < r.state.timer.value.delay <= Day
    ensures forall i :: 0 <= i < |r.effects| - 1 ==> !r.effects[i].TimerArmed? && !r.effects[i].ParseError?
    ensures s.timer.Some? ==> TimerStopped(s.timer.value) in r.effects[..|r.effects| - 1]
    ensures s.cmd.Some? ==> ReleaseAttempt(s.cmd.value) in r.effects[..|r.effects| - 1]
    ensures s.cmd.Some? ==> r.effects[0] == KillAttempt(s.cmd.value)
    ensures forall e :: e in r.effects[..|r.effects| - 1] ==>
      e.KillAttempt? || e.KillError? || e.ReleaseAttempt? || e.ReleaseError? || e.TimerStopped?
    ensures r.effects[..|r.effects| - 1] == Stop(s, retire).effects
  {
    var stopped := Stop(s, retire);
    match parsed
    case ParseFailed(msg) =>
      var fx := stopped.effects + [ParseError(text, msg, TimeFormat)];
      StopThen(s, retire, ParseError(text, msg, TimeFormat));
      Transition(stopped.state, fx)
    case ParsedOk(alarmTime) =>
      var later := BestTime(now, alarmTime);
      BestTimeWithinOneDay(now, alarmTime);
      var t := Timer(later, Sub(later, now));
      var fx := stopped.effects + [TimerArmed(t)];
      StopThen(s, retire, TimerArmed(t));
      Transition(State(stopped.state.cmd, Some(t), Some(Chan(later))), fx)
  }

  /**
    The timer case. A nil `timerChan` is never ready in a `select`, so the
    event does nothing then. Otherwise the command is built from the text
    read now and started; `cmd` keeps it only if it started.
   */
  function Fire(s: State, text: string, spawn: SpawnResult): (r: Transition)
    ensures s.timerChan.None? ==> r == Transition(s, [])
    ensures s.timerChan.Some? ==> r.state.timer.None? && r.state.timerChan.None?
    ensures s.timerChan.Some? ==> (r.state.cmd.Some? <==> spawn.Spawned?)
    ensures s.timerChan.Some? && spawn.Spawned? ==> r.state.cmd == Some(Process(spawn.pid, ShellCommand(text)))
    ensures s.timerChan.Some? && spawn.SpawnFailed? ==> ProcessStartError(ShellCommand(text), spawn.msg) in r.effects
    ensures spawn.Spawned? ==> forall e :: e in r.effects ==> !e.ProcessStartError?
    ensures s.timerChan.Some? ==> |r.effects| >= 1 && r.effects[0] == ProcessStart(ShellCommand(text))
    ensures forall i :: 1 <= i < |r.effects| ==>
      i == 1 && r.effects[i].ProcessStartError? && r.effects[i].c == ShellCommand(text)
  {
    if s.timerChan.None? then
      Transition(s, [])
    else
      var c := ShellCommand(text);
      match spawn
      case Spawned(pid) => Transition(State(Some(Process(pid, c)), None, None), [ProcessStart(c)])
      case SpawnFailed(msg) => Transition(State(None, None, None), [ProcessStart(c), ProcessStartError(c, msg)])
  }

  /** One pass of the `select` loop. */
  function Step(s: State, e: Event): Transition
    requires WellFormed(e)
  {
    match e
    case StartClicked(retire, text, parsed, now) => StartAlarm(s, retire, text, parsed, now)
    case TimerFired(text, spawn) => Fire(s, text, spawn)
    case StopClicked(retire) =>
      var t := Stop(s, retire);
      Transition(t.state, t.effects + [AbortNotice])
    case Closing(retire) => Stop(s, retire)
  }

  /** `cmd = exec.Command(...)` overwrites `cmd`, but whenever the timer can fire `cmd` is nil, so no process is lost. */
  lemma FireDropsNoProcess(s: State)
    requires Inv(s) && s.timerChan.Some?
    ensures s.cmd.None?
  {
  }

  /** Every transition keeps the invariant. */
  lemma StepKeepsInv(s: State, e: Event)
    requires Inv(s) && WellFormed(e)
    ensures Inv(Step(s, e).state)
  {
  }

  /** The idle/armed/firing abstraction of the loop: idle, armed with a timer, or running a command. */
  datatype Phase = Idle | Armed(t: Timer) | Firing(p: Process)

  function PhaseOf(s: State): (ph: Phase)
    requires Inv(s)
    ensures ph.Idle? <==> s == Initial
    ensures ph.Armed? <==> s.timer.Some?
    ensures ph.Firing? <==> s.cmd.Some?
    ensures ph.Armed? ==> ph.t == s.timer.value
    ensures ph.Firing? ==> ph.p == s.cmd.value
  {
    if s.timer.Some? then Armed(s.timer.value)
    else if s.cmd.Some? then Firing(s.cmd.value)
    else Idle
  }

  function StateOf(ph: Phase): (s: State)
    ensures Inv(s)
  {
    match ph
    case Idle => Initial
    case Armed(t) => State(None, Some(t), Some(Chan(t.fireAt)))
    case Firing(p) => State(Some(p), None, None)
  }

  /** States that keep the invariant and phases are in one-to-one correspondence. */
  lemma PhaseRoundTrip(s: State, ph: Phase)
    requires Inv(s)
    ensures StateOf(PhaseOf(s)) == s
    ensures PhaseOf(StateOf(ph)) == ph
  {
  }

  /**
    The idle/armed/firing abstraction of the loop as a state machine: Start arms a timer for the next
    occurrence (or stays idle on a parse error); the timer moves Armed to
    Firing, or to Idle when the command fails to start; Stop and Closing
    return to Idle from anywhere.
   */
  function PhaseStep(ph: Phase, e: Event): Phase
    requires WellFormed(e)
  {
    match e
    case StartClicked(_, _, parsed, now) =>
      if parsed.ParseFailed? then Idle
      else
        var at := BestTime(now, parsed.time);
        Armed(Timer(at, Sub(at, now)))
    case TimerFired(text, spawn) =>
      if !ph.Armed? then ph
      else if spawn.Spawned? then Firing(Process(spawn.pid, ShellCommand(text)))
      else Idle
    case StopClicked(_) => Idle
    case Closing(_) => Idle
  }

  /** The loop's transitions refine the phase machine. */
  lemma StepRefinesPhaseStep(s: State, e: Event)
    requires Inv(s) && WellFormed(e)
    ensures Inv(Step(s, e).state)
    ensures PhaseOf(Step(s, e).state) == PhaseStep(PhaseOf(s), e)
  {
  }

  datatype Trace = Trace(state: State, effects: seq<Effect>, exited: bool)

  predicate AllWellFormed(evs: seq<Event>) {
    forall i :: 0 <= i < |evs| ==> WellFormed(evs[i])
  }

  /**
    The loop over a sequence of delivered events. It stops at the first
    Closing; the `stop()` after the loop is that event's transition.
   */
  function Run(s: State, evs: seq<Event>): (r: Trace)
    requires Inv(s) && AllWellFormed(evs)
    ensures Inv(r.state)
    ensures r.exited <==> exists i :: 0 <= i < |evs| && evs[i].Closing?
    ensures r.exited ==> r.state == Initial
    decreases |evs|
  {
    if |evs| == 0 then Trace(s, [], false)
    else
      StepKeepsInv(s, evs[0]);
      var t := Step(s, evs[0]);
      if evs[0].Closing? then Trace(t.state, t.effects, true)
      else
        var rest := Run(t.state, evs[1..]);
        assert forall i :: 1 <= i < |evs| ==> evs[i] == evs[1..][i - 1];
        Trace(rest.state, t.effects + rest.effects, rest.exited)
  }
}

=== FILE: civil.dfy ===
/**
  Proleptic Gregorian civil dates, as used by Go's `time` package for
  `Time.Year/Month/Day`, `time.Date` and `Time.AddDate(0, 0, 1)`.

  Days are numbered consecutively from 0001-01-01 (day 0); `DayNumber` is the
  independent reference against which `NextDay` is proved correct.
 */
module Civil {

  datatype Date = Date(year: int, month: int, day: int)

  /** Gregorian leap-year rule. */
  predicate IsLeapYear(y: int) {
    y % 4 == 0 && (y % 100 != 0 || y % 400 == 0)
  }

  function YearLength(y: int): int {
    if IsLeapYear(y) then 366 else 365
  }

  function DaysInMonth(y: int, m: int): int
    requires 1 <= m <= 12
  {
    if m == 2 then (if IsLeapYear(y) then 29 else 28)
    else if m == 4 || m == 6 || m == 9 || m == 11 then 30
    else 31
  }

  /** A date that names a real day of the calendar. */
  predicate ValidDate(d: Date) {
    1 <= d.month <= 12 && 1 <= d.day <= DaysInMonth(d.year, d.month)
  }

  /** Days in the months of year `y` that precede month `m` (m == 13: the whole year). */
  function DaysBeforeMonth(y: int, m: int): int
    requires 1 <= m <= 13
  {
    var feb := if IsLeapYear(y) then 29 else 28;
    match m
    case 1 => 0
    case 2 => 31
    case 3 => 31 + feb
    case 4 => 62 + feb
    case 5 => 92 + feb
    case 6 => 123 + feb
    case 7 => 153 + feb
    case 8 => 184 + feb
    case 9 => 215 + feb
    case 10 => 245 + feb
    case 11 => 276 + feb
    case 12 => 306 + feb
    case _ => 337 + feb
  }

  /** Days from 0001-01-01 to January 1st of year `y` (negative before year 1). */
  function DaysBeforeYear(y: int): int {
    365 * (y - 1) + (y - 1) / 4 - (y - 1) / 100 + (y - 1) / 400
  }

  /** Position of a date on the line of consecutive days. */
  function DayNumber(d: Date): int
    requires 1 <= d.month <= 12
  {
    DaysBeforeYear(d.year) + DaysBeforeMonth(d.year, d.month) + d.day - 1
  }

  /**
    The calendar day after `d`: what `AddDate(0, 0, 1)` computes, by
    normalising day `d.day + 1` into the next month and year when it overflows.
   */
  function NextDay(d: Date): (r: Date)
    requires ValidDate(d)
    ensures ValidDate(r)
    ensures DayNumber(r) == DayNumber(d) + 1
    ensures r.year == d.year || (r.year == d.year + 1 && d.month == 12 && d.day == 31 && r.month == 1 && r.day == 1)
  {
    if d.day < DaysInMonth(d.year, d.month) then
      Date(d.year, d.month, d.day + 1)
    else if d.month < 12 then
      MonthStep(d.year, d.month);
      Date(d.year, d.month + 1, 1)
    else
      YearStep(d.year);
      Date(d.year + 1, 1, 1)
  }

  /** The calendar day before `d`, the inverse of `NextDay`. */
  function PrevDay(d: Date): (r: Date)
    requires ValidDate(d)
    ensures ValidDate(r)
    ensures DayNumber(r) + 1 == DayNumber(d)
  {
    if d.day > 1 then
      Date(d.year, d.month, d.day - 1)
    else if d.month > 1 then
      MonthStep(d.year, d.month - 1);
      Date(d.year, d.month - 1, DaysInMonth(d.year, d.month - 1))
    else
      YearStep(d.year - 1);
      Date(d.year - 1, 12, 31)
  }

  /** Month `m` is followed by month `m + 1` after exactly `DaysInMonth(y, m)` days. */
  lemma MonthStep(y: int, m: int)
    requires 1 <= m <= 12
    ensures DaysBeforeMonth(y, m + 1) == DaysBeforeMonth(y, m) + DaysInMonth(y, m)
  {
  }

  /** For a positive divisor, the quotient grows by one exactly at multiples of `k`. */
  lemma {:induction false} QuotientStep(y: int, k: int)
    requires k > 0
    ensures y / k - (y - 1) / k == (if y % k == 0 then 1 else 0)
  {
    var q, r := (y - 1) / k, (y - 1) % k;
    assert y - 1 == k * q + r && 0 <= r < k;
    if r == k - 1 {
      assert y == k * (q + 1) + 0;
      DivisionUnique(y, k, q + 1, 0);
    } else {
      assert y == k * q + (r + 1);
      DivisionUnique(y, k, q, r + 1);
    }
  }

  /** Euclidean quotient and remainder are determined by `y == k * q + r`, `0 <= r < k`. */
  lemma DivisionUnique(y: int, k: int, q: int, r: int)
    requires k > 0 && 0 <= r < k && y == k * q + r
    ensures y / k == q && y % k == r
  {
    var q', r' := y / k, y % k;
    assert k * q + r == k * q' + r';
    assert k * (q - q') == r' - r;
    if q - q' >= 1 {
      ProductAtLeast(k, q - q');
    } else if q' - q >= 1 {
      ProductAtLeast(k, q' - q);
    }
  }

  lemma {:induction false} ProductAtLeast(k: int, n: int)
    requires k > 0 && n >= 1
    ensures k * n >= k
    decreases n
  {
    if n > 1 {
      ProductAtLeast(k, n - 1);
      assert k * n == k * (n - 1) + k;
    }
  }

  /** January 1st of `y + 1` comes exactly one year length after January 1st of `y`. */
  lemma {:induction false} YearStep(y: int)
    ensures DaysBeforeYear(y + 1) == DaysBeforeYear(y) + YearLength(y)
    ensures DaysBeforeMonth(y, 13) == YearLength(y)
  {
    QuotientStep(y, 4);
    QuotientStep(y, 100);
    QuotientStep(y, 400);
    if y % 400 == 0 {
      DivisionUnique(y, 100, (y / 400) * 4, 0);
      DivisionUnique(y, 4, (y / 400) * 100, 0);
    } else if y % 100 == 0 {
      DivisionUnique(y, 4, (y / 100) * 25, 0);
    }
  }

  /** Lexicographic order of dates: year, then month, then day. */
  predicate Before(a: Date, b: Date) {
    a.year < b.year
    || (a.year == b.year && a.month < b.month)
    || (a.year == b.year && a.month == b.month && a.day < b.day)
  }

  lemma {:induction false} DaysBeforeYearMonotone(y1: int, y2: int)
    requires y1 <= y2
    ensures DaysBeforeYear(y1) <= DaysBeforeYear(y2)
    decreases y2 - y1
  {
    if y1 < y2 {
      YearStep(y1);
      DaysBeforeYearMonotone(y1 + 1, y2);
    }
  }

  /** A valid date lies within its own year on the day line. */
  lemma WithinYear(d: Date)
    requires ValidDate(d)
    ensures DaysBeforeYear(d.year) <= DayNumber(d) < DaysBeforeYear(d.year + 1)
  {
    YearStep(d.year);
    MonthStep(d.year, d.month);
    DaysBeforeMonthMonotone(d.year, d.month + 1, 13);
  }

  lemma DaysBeforeMonthMonotone(y: int, m1: int, m2: int)
    requires 1 <= m1 <= m2 <= 13
    ensures DaysBeforeMonth(y, m1) <= DaysBeforeMonth(y, m2)
  {
  }

  /** Day numbering preserves the calendar order of valid dates. */
  lemma DayNumberMonotone(a: Date, b: Date)
    requires ValidDate(a) && ValidDate(b) && Before(a, b)
    ensures DayNumber(a) < DayNumber(b)
  {
    if a.year < b.year {
      WithinYear(a);
      WithinYear(b);
      DaysBeforeYearMonotone(a.year + 1, b.year);
    } else if a.month < b.month {
      MonthStep(a.year, a.month);
      DaysBeforeMonthMonotone(a.year, a.month + 1, b.month);
    }
  }

  /** Distinct valid dates have distinct day numbers. */
  lemma DayNumberInjective(a: Date, b: Date)
    requires ValidDate(a) && ValidDate(b) && DayNumber(a) == DayNumber(b)
    ensures a == b
  {
    if Before(a, b) {
      DayNumberMonotone(a, b);
    } else if Before(b, a) {
      DayNumberMonotone(b, a);
    }
  }

  /** `PrevDay` undoes `NextDay`, and `NextDay` undoes `PrevDay`. */
  lemma NextPrevRoundTrip(d: Date)
    requires ValidDate(d)
    ensures PrevDay(NextDay(d)) == d
    ensures NextDay(PrevDay(d)) == d
  {
    DayNumberInjective(PrevDay(NextDay(d)), d);
    DayNumberInjective(NextDay(PrevDay(d)), d);
  }
}

=== FILE: clock.dfy ===
/**
  Wall-clock time of day, the `(hour, minute, second)` triple that Go's
  `Time.Clock()` returns.
 */
module TimeOfDay {

  datatype Clock = Clock(hour: int, minute: int, second: int)

  const SecondsPerDay: int := 86400

  /** The ranges `Time.Clock()` produces: hour 0-23, minute and second 0-59. */
  predicate ValidClock(c: Clock) {
    0 <= c.hour < 24 && 0 <= c.minute < 60 && 0 <= c.second < 60
  }

  /** Seconds elapsed since midnight. */
  function SecondOfDay(c: Clock): int {
    c.hour * 3600 + c.minute * 60 + c.second
  }

  /** `a` is strictly earlier in the day than `b`, to the second. */
  predicate Earlier(a: Clock, b: Clock) {
    SecondOfDay(a) < SecondOfDay(b)
  }

  /** A valid clock names one second of the day. */
  lemma SecondOfDayRange(c: Clock)
    requires ValidClock(c)
    ensures 0 <= SecondOfDay(c) < SecondsPerDay
  {
  }
}

=== FILE: instant.dfy ===
/**
  A Go `time.Time` value as seen in one local zone with a fixed UTC offset:
  a civil date, a clock, a nanosecond within the second and the zone.
  `Time.Sub` is modelled on the absolute instant, saturating at the bounds of
  the 64-bit `Duration` type as Go's implementation does.
 */
module Instant {
  import opened Civil
  import opened TimeOfDay

  /** A location with a fixed offset east of UTC, in seconds. */
  datatype Zone = Zone(name: string, offset: int)

  datatype Time = Time(date: Date, clock: Clock, nsec: int, zone: Zone)

  const NanosPerSecond: int := 1_000_000_000

  /** One calendar day as a `Duration` (nanoseconds). */
  const Day: int := 86400 * NanosPerSecond

  const MaxDuration: int := 0x7fff_ffff_ffff_ffff
  const MinDuration: int := -0x8000_0000_0000_0000

  predicate ValidTime(t: Time) {
    ValidDate(t.date) && ValidClock(t.clock) && 0 <= t.nsec < NanosPerSecond
  }

  /** Nanoseconds since 0001-01-01 00:00:00 UTC. */
  function AbsoluteNanos(t: Time): int
    requires ValidTime(t)
  {
    (DayNumber(t.date) * SecondsPerDay + SecondOfDay(t.clock) - t.zone.offset) * NanosPerSecond + t.nsec
  }

  /** `t.Sub(u)`: the duration `t - u`, clamped to the 64-bit `Duration` range. */
  function Sub(t: Time, u: Time): (d: int)
    requires ValidTime(t) && ValidTime(u)
    ensures MinDuration <= d <= MaxDuration
    ensures MinDuration <= AbsoluteNanos(t) - AbsoluteNanos(u) <= MaxDuration ==> d == AbsoluteNanos(t) - AbsoluteNanos(u)
    ensures d > 0 <==> AbsoluteNanos(t) > AbsoluteNanos(u)
    ensures AbsoluteNanos(t) - AbsoluteNanos(u) > MaxDuration ==> d == MaxDuration
    ensures AbsoluteNanos(t) - AbsoluteNanos(u) < MinDuration ==> d == MinDuration
  {
    var exact := AbsoluteNanos(t) - AbsoluteNanos(u);
    if exact > MaxDuration then MaxDuration
    else if exact < MinDuration then MinDuration
    else exact
  }
}

=== FILE: resolve.dfy ===
/**
  `bestTime` of main.go: place a target time of day on the day of `now`
  if it has not yet come, otherwise on the following day.
 */
module Resolve {
  import opened Civil
  import opened TimeOfDay
  import opened Instant

  /**
    The three-branch test of `bestTime`, as written: a day is added when
    now's hour is later, or the hours agree and now's minute is later, or
    hours and minutes agree and now's second is later or the same.
   */
  predicate AddsDay(now: Clock, later: Clock) {
    if now.hour > later.hour then true
    else if now.hour == later.hour && now.minute > later.minute then true
    else if now.hour == later.hour && now.minute == later.minute && now.second >= later.second then true
    else false
  }

  /** The three-branch test is exactly "now's clock is not earlier than the target's". */
  lemma AddsDayIffNotEarlier(now: Clock, later: Clock)
    requires ValidClock(now) && ValidClock(later)
    ensures AddsDay(now, later) <==> !Earlier(now, later)
  {
    if now.hour < later.hour {
      assert SecondOfDay(now) < now.hour * 3600 + 3600 <= SecondOfDay(later);
    } else if now.hour > later.hour {
      assert SecondOfDay(later) < later.hour * 3600 + 3600 <= SecondOfDay(now);
    }
  }

  /**
    `bestTime(now, later)`: the date of `now`, moved one day forward when the
    target clock is not strictly later than now's, at the target's clock with
    zero nanoseconds, in now's zone.
   */
  function BestTime(now: Time, later: Time): (r: Time)
    requires ValidTime(now) && ValidTime(later)
    ensures ValidTime(r)
    ensures r.clock == later.clock && r.nsec == 0 && r.zone == now.zone
    ensures Earlier(now.clock, later.clock) ==> r.date == now.date
    ensures !Earlier(now.clock, later.clock) ==> r.date == NextDay(now.date)
  {
    AddsDayIffNotEarlier(now.clock, later.clock);
    var day := if AddsDay(now.clock, later.clock) then NextDay(now.date) else now.date;
    Time(day, later.clock, 0, now.zone)
  }

  /** The resolved instant is strictly after `now` and at most one day after it. */
  lemma BestTimeWithinOneDay(now: Time, later: Time)
    requires ValidTime(now) && ValidTime(later)
    ensures 0 < Sub(BestTime(now, later), now) <= Day
  {
    var r := BestTime(now, later);
    SecondOfDayRange(now.clock);
    SecondOfDayRange(later.clock);
    var diff := AbsoluteNanos(r) - AbsoluteNanos(now);
    assert diff == ((DayNumber(r.date) - DayNumber(now.date)) * SecondsPerDay
                    + SecondOfDay(later.clock) - SecondOfDay(now.clock)) * NanosPerSecond - now.nsec;
  }

  /**
    Among instants with the target clock, zero nanoseconds and now's zone,
    `BestTime` is exactly the one in the half-open day `(now, now + 24h]`:
    the next occurrence of the target time of day.
   */
  lemma NextOccurrence(now: Time, later: Time, x: Time)
    requires ValidTime(now) && ValidTime(later) && ValidTime(x)
    requires x.clock == later.clock && x.nsec == 0 && x.zone == now.zone
    ensures 0 < Sub(x, now) <= Day <==> x == BestTime(now, later)
  {
    var r := BestTime(now, later);
    BestTimeWithinOneDay(now, later);
    if 0 < Sub(x, now) <= Day {
      var k := DayNumber(x.date) - DayNumber(r.date);
      assert AbsoluteNanos(x) - AbsoluteNanos(r) == k * Day;
      assert -Day < k * Day < Day;
      DayNumberInjective(x.date, r.date);
    }
  }

  /** Resolving the result again from the same frozen `now` gives the same instant. */
  lemma BestTimeStable(now: Time, later: Time)
    requires ValidTime(now) && ValidTime(later)
    ensures BestTime(now, BestTime(now, later)) == BestTime(now, later)
  {
  }
}

=== FILE: scenarios.dfy ===
/**
  Concrete and whole-trace consequences of the model: worked resolutions
  of `bestTime`, calendar edges, and event sequences of the loop.
 */
module Scenarios {
  import opened Civil
  import opened TimeOfDay
  import opened Instant
  import opened Resolve
  import opened Alarm

  const Local: Zone := Zone("Local", -5 * 3600)
  const UTC: Zone := Zone("UTC", 0)

  /** What `time.Parse("3:04 PM", ...)` returns for a clock: year 0, January 1, UTC. */
  function Parsed(h: int, m: int): Time {
    Time(Date(0, 1, 1), Clock(h, m, 0), 0, UTC)
  }

  /** At 10:31 the 10:30 alarm is placed on the next day. */
  lemma TargetAlreadyPassed()
    ensures BestTime(Time(Date(2014, 3, 4), Clock(10, 31, 0), 0, Local), Parsed(10, 30))
         == Time(Date(2014, 3, 5), Clock(10, 30, 0), 0, Local)
  {
  }

  /** At 09:00 the 10:30 alarm is placed on the same day. */
  lemma TargetStillAhead()
    ensures BestTime(Time(Date(2014, 3, 4), Clock(9, 0, 0), 0, Local), Parsed(10, 30))
         == Time(Date(2014, 3, 4), Clock(10, 30, 0), 0, Local)
  {
  }

  /** On the exact second the alarm goes to tomorrow, a full day away. */
  lemma ExactSecondIsTomorrow()
    ensures BestTime(Time(Date(2014, 3, 4), Clock(10, 30, 0), 0, Local), Parsed(10, 30))
         == Time(Date(2014, 3, 5), Clock(10, 30, 0), 0, Local)
    ensures Sub(BestTime(Time(Date(2014, 3, 4), Clock(10, 30, 0), 0, Local), Parsed(10, 30)),
                Time(Date(2014, 3, 4), Clock(10, 30, 0), 0, Local)) == Day
  {
    assert DayNumber(Date(2014, 3, 5)) == DayNumber(Date(2014, 3, 4)) + 1;
  }

  /** The next day crosses month ends, year ends and leap days. */
  lemma CalendarEdges()
    ensures NextDay(Date(2014, 12, 31)) == Date(2015, 1, 1)
    ensures NextDay(Date(2014, 4, 30)) == Date(2014, 5, 1)
    ensures NextDay(Date(2016, 2, 28)) == Date(2016, 2, 29)
    ensures NextDay(Date(2016, 2, 29)) == Date(2016, 3, 1)
    ensures NextDay(Date(2015, 2, 28)) == Date(2015, 3, 1)
    ensures NextDay(Date(2000, 2, 28)) == Date(2000, 2, 29)
    ensures NextDay(Date(2100, 2, 28)) == Date(2100, 3, 1)
  {
  }

  /** Stop on an idle loop kills, releases and stops nothing; the button still shows the abort box. */
  lemma StopWhenIdle(c: Cleanup)
    ensures Step(Initial, StopClicked(c)) == Transition(Initial, [AbortNotice])
  {
  }

  /** Start then Stop: the loop is idle and neither step started a process. */
  lemma StartThenStopFirstTwo(s: State, c1: Cleanup, text: string, at: Time, now: Time, c2: Cleanup)
    requires Inv(s) && ValidTime(at) && ValidTime(now)
    ensures var t1 := Step(s, StartClicked(c1, text, ParsedOk(at), now));
      var t2 := Step(t1.state, StopClicked(c2));
      && Inv(t1.state)
      && t2.state == Initial
      && (forall e :: e in t1.effects ==> !e.ProcessStart?)
      && (forall e :: e in t2.effects ==> !e.ProcessStart?)
  {
    var t1 := Step(s, StartClicked(c1, text, ParsedOk(at), now));
    assert t1.effects == Stop(s, c1).effects + [TimerArmed(t1.state.timer.value)];
  }

  /** After Stop the timer's channel is gone, so a later timer event changes nothing. */
  lemma StopThenLateFire(s: State, c: Cleanup, cmdText: string, spawn: SpawnResult)
    requires Inv(s)
    ensures Run(s, [StopClicked(c), TimerFired(cmdText, spawn)])
         == Trace(Initial, Step(s, StopClicked(c)).effects, false)
  {
    var e2, e3 := StopClicked(c), TimerFired(cmdText, spawn);
    assert Step(s, e2).state == Initial;
    assert Step(Initial, e3) == Transition(Initial, []);
    assert [e3][1..] == [];
    assert Run(Initial, []) == Trace(Initial, [], false);
    assert Run(Initial, [e3]) == Trace(Initial, [], false);
    assert [e2, e3][1..] == [e3];
  }

  /**
    Start, then Stop before the delay elapses: the timer's channel is gone, so
    a late delivery is never handled, no process is started and the loop
    ends idle.
   */
  lemma StartThenStop(s: State, c1: Cleanup, text: string, at: Time, now: Time, c2: Cleanup, cmdText: string, spawn: SpawnResult)
    requires Inv(s) && ValidTime(at) && ValidTime(now)
    ensures var tr := Run(s, [StartClicked(c1, text, ParsedOk(at), now), StopClicked(c2), TimerFired(cmdText, spawn)]);
      && tr.state == Initial
      && !tr.exited
      && forall i :: 0 <= i < |tr.effects| ==> !tr.effects[i].ProcessStart?
  {
    var e1, e2, e3 := StartClicked(c1, text, ParsedOk(at), now), StopClicked(c2), TimerFired(cmdText, spawn);
    StartThenStopFirstTwo(s, c1, text, at, now, c2);
    var t1 := Step(s, e1);
    var t2 := Step(t1.state, e2);
    StopThenLateFire(t1.state, c2, cmdText, spawn);
    assert [e1, e2, e3][1..] == [e2, e3];
    var tr := Run(s, [e1, e2, e3]);
    assert tr == Trace(Initial, t1.effects + t2.effects, false);
    forall i | 0 <= i < |tr.effects|
      ensures !tr.effects[i].ProcessStart?
    {
      if i < |t1.effects| {
        assert tr.effects[i] in t1.effects;
      } else {
        assert tr.effects[i] in t2.effects;
      }
    }
  }

  /** When the command cannot be started, the loop is idle again and the error is shown. */
  lemma SpawnFailureReturnsToIdle(c: Cleanup, text: string, at: Time, now: Time, cmdText: string, msg: string)
    requires ValidTime(at) && ValidTime(now)
    ensures var armed := Step(Initial, StartClicked(c, text, ParsedOk(at), now)).state;
      && armed.timer.Some?
      && Step(armed, TimerFired(cmdText, SpawnFailed(msg))).state == Initial
      && ProcessStartError(ShellCommand(cmdText), msg) in Step(armed, TimerFired(cmdText, SpawnFailed(msg))).effects
  {
  }

  /** A second Start stops the first timer before arming its own. */
  lemma StartTwice(s: State, c1: Cleanup, c2: Cleanup, text: string, at1: Time, at2: Time, now1: Time, now2: Time)
    requires Inv(s) && ValidTime(at1) && ValidTime(at2) && ValidTime(now1) && ValidTime(now2)
    ensures var first := Step(s, StartClicked(c1, text, ParsedOk(at1), now1));
      var second := Step(first.state, StartClicked(c2, text, ParsedOk(at2), now2));
      && TimerStopped(first.state.timer.value) in second.effects
      && second.state.timer.value.fireAt == BestTime(now2, at2)
      && Alarms(second.state) == 1
  {
  }

  /** A malformed time leaves the loop idle with no timer and reports the expected layout. */
  lemma MalformedTime(s: State, c: Cleanup, now: Time, msg: string)
    requires Inv(s) && ValidTime(now)
    ensures Step(s, StartClicked(c, "25:99 XM", ParseFailed(msg), now)).state == Initial
    ensures ParseError("25:99 XM", msg, "3:04 PM") in Step(s, StartClicked(c, "25:99 XM", ParseFailed(msg), now)).effects
  {
  }
}
